=== FILE: README.md ===
# Lichess tournament statistics — a Dafny model of the aggregation pipeline

The Streamlit page `Lichess_app.py` fetches a player's tournament history and shows
statistics about it. This project models the pure part of that page as Dafny
functions over a sequence of tournament records, and proves properties about them:

- **Classifier** (`classifier.dfy`): `get_frequency` tags a tournament name as hourly,
  daily, weekly, monthly or yearly by its case-insensitive prefix. Failing that, it
  tags it shield when the name contains "shield", and other otherwise.
- **Ranker** (`ranker.dfy`): `final_sort_key` builds the key
  `(frequency rank, time-control rank, lower-cased name)`. The time-control rank
  comes from the first token of `time_control_order`, in table order, that occurs
  in the name. The group names are then stable-sorted by that key into the
  selection list.
- **Aggregator** (`records.dfy`, `aggregate.dfy`):
  - the overall statistics (tournaments, first places, points);
  - grouping by `tournament.fullName`, with `"Unknown"` when the name is missing;
  - the statistics panel of one group.
- **Series builder** (`series.dfy`): the dated `(Date, Points)` entries of a group,
  sorted by date, with a cumulative column. The date-range presets keep the rows on
  or after a lower bound.
- **Page** (`dashboard.dfy`): puts the above together for one selected name and one
  preset.

Design choices:
- Records are immutable datatypes with `Option` fields.
- A missing nested `tournament` or `player` object reads the same as one whose
  fields are all missing.
- Timestamps are integer epoch milliseconds. `pd.to_datetime` preserves their order.
- The preset lower bounds come from today's date and calendar arithmetic. The host
  computes them and passes them in as a `Bounds` value.
- Every sum over records (counts, points) is an instance of one function,
  `Records.Measure`. This lets the partition lemma hold for all of them at once.

Two behaviours of the code that are easy to misread:
- Only a *missing* `fullName` becomes `"Unknown"`. An empty name stays `""` and
  forms its own group.
- The lower-cased-name tie-break does not make the order strict. Names that differ
  only in letter case get equal keys (`Ranker.SameKeyIffSameLowerName`). Python's
  stable sort then keeps them in grouping-key order, which is first-appearance
  order.

## Model

| member | source | states |
|---|---|---|
| Text.ToLower | Lichess_app.py:74 | lower-casing keeps the length, maps each ASCII capital to the letter 32 code points above it, leaves every other character unchanged, and leaves no ASCII capital |
| Text.ToLowerIdempotent | Lichess_app.py:74 | lower-casing twice equals lower-casing once, so tests on `lname` ignore case |
| Text.StrLeTotal | Lichess_app.py:121 | any two strings are comparable under Python's code-point lexicographic order |
| Text.StrLeTransitive | Lichess_app.py:121 | Python's string order is transitive |
| Text.StrLeAntisymmetric | Lichess_app.py:121 | two strings each `<=` the other are equal |
| Text.ContainsTransitive | Lichess_app.py:85 | a substring of a substring is a substring (why every "ultrabullet" name also contains "bullet") |
| Text.StartsWith | Lichess_app.py:75-84 | no contract of its own (a predicate): `s.startswith(p)`, used by `Classifier.GetFrequencyCharacterised` and `Classifier.CadencePrefixesExclusive` |
| Text.Contains | Lichess_app.py:85 | no contract of its own (a predicate): Python's substring test `t in s`, about which `Text.ContainsTransitive` is proved |
| Text.StrLe | Lichess_app.py:121 | no contract of its own (a predicate): Python's `<=` on strings; `Text.StrLeTotal`, `Text.StrLeTransitive`, `Text.StrLeAntisymmetric` and `Text.StrLeReflexive` make it a total order |
| Text.StrLeReflexive | Lichess_app.py:121 | every string is `<=` itself |
| Classifier.GetFrequencyCharacterised | Lichess_app.py:73-88 | a cadence is chosen exactly when its tag is a prefix of the lower-cased name; shield exactly when "shield" occurs and no cadence prefix does; other exactly when neither holds |
| Classifier.GetFrequency | Lichess_app.py:73-88 | no contract of its own: the if-chain of `get_frequency` as written; `Classifier.GetFrequencyCharacterised` states which category it returns for every name |
| Classifier.CadencePrefixesExclusive | Lichess_app.py:75-84 | no name starts with two different cadence tags, so the order of the prefix checks does not matter |
| Classifier.PrefixBeatsShield | Lichess_app.py:75-86 | a name with a cadence prefix that also contains "shield" gets the cadence ("Daily Shield Arena" is daily) |
| Classifier.GetFrequencyCaseInsensitive | Lichess_app.py:73-74 | names equal up to case get the same category, which is also the category of the lower-cased name |
| Classifier.EmptyNameIsOther | Lichess_app.py:73-88 | the empty name is other |
| Classifier.FrequencyRank | Lichess_app.py:100-108 | every category has a rank in 1..7 |
| Ranker.KeyLeAntisymmetric | Lichess_app.py:110-121 | two keys each ordered before the other are equal, so the key order is total and antisymmetric |
| Ranker.SameFrequencyRankSameCategory | Lichess_app.py:100-119 | names whose keys have the same frequency rank have the same frequency category |
| Classifier.FrequencyRankInjective | Lichess_app.py:100-108 | distinct categories have distinct ranks |
| Ranker.TimeControlRanksArePositions | Lichess_app.py:91-98 | each time-control token's rank is its 1-based position in the scan order |
| Ranker.FirstToken | Lichess_app.py:115-117 | the index found is the least index, from the scan start, of a token occurring in the name |
| Ranker.TimeControlRank | Lichess_app.py:110-119 | the rank is 99999 iff no token occurs; otherwise it is r in 1..6, token r occurs, and no earlier token of the table occurs |
| Ranker.FinalSortKey | Lichess_app.py:110-119 | the frequency rank is the `frequency_order` rank of the name's category, always in 1..7; the third component is the lower-cased name; the time-control rank is 99999 exactly when the lower-cased name contains none of the six tokens, and otherwise is the 1-based position of the first token in table order that it contains |
| Ranker.KeyLeTotal | Lichess_app.py:121 | any two sort keys are comparable |
| Ranker.KeyLe | Lichess_app.py:121 | no contract of its own (a predicate): Python's tuple `<=` on sort keys; `Ranker.KeyLeTotal`, `Ranker.KeyLeTransitive` and `Ranker.KeyLeAntisymmetric` make it a total order |
| Ranker.KeyLeTransitive | Lichess_app.py:121 | the tuple order on sort keys is transitive |
| Ranker.SameKeyIffSameLowerName | Lichess_app.py:110-119 | two names have equal keys exactly when their lower-cased forms are equal |
| Ranker.HyperbulletRank | Lichess_app.py:91-98 | a name containing "hyperbullet" but not "ultrabullet" ranks 2, not as the "bullet" it contains |
| Ranker.SuperblitzRank | Lichess_app.py:91-98 | a name containing "superblitz" and no bullet token ranks 4, not as the "blitz" it contains |
| Ranker.HyperbulletBeforeBullet | Lichess_app.py:110-121 | in one frequency bucket a hyperbullet name is listed strictly before a plain bullet name |
| Ranker.FrequencyDominates | Lichess_app.py:110-121 | a smaller frequency rank puts a name strictly first, whatever the time control and name |
| Ranker.InsertPermutes | Lichess_app.py:121 | inserting a name adds exactly that name to the multiset |
| Ranker.InsertSorted | Lichess_app.py:121 | inserting into a key-sorted list keeps it key-sorted |
| Ranker.InsertStable | Lichess_app.py:121 | an inserted name goes before every name with an equal key and leaves their order alone |
| Ranker.Insert | Lichess_app.py:121 | inserting adds one element; `Ranker.InsertPermutes`, `Ranker.InsertSorted` and `Ranker.InsertStable` state what it inserts, where, and that ties keep their order |
| Ranker.SortBy | Lichess_app.py:121 | sorting keeps the length; `Ranker.SortByCorrect` states that the result is the unique stable key-sorted permutation |
| Ranker.SortNames | Lichess_app.py:121 | no contract of its own: `sorted(..., key=final_sort_key)`, the stable sort under `Ranker.FinalSortKey`, which `Ranker.SortByCorrect` characterises |
| Ranker.SortByCorrect | Lichess_app.py:121 | the stable sort gives a permutation of its input that is non-decreasing by key; for each key, the names with that key keep their input order |
| Aggregate.ComputeGlobalStats | Lichess_app.py:56-58 | the tournament count is the number of records, and the first-place count is between 0 and that number |
| Records.GroupName | Lichess_app.py:69 | the tournament name when present, "Unknown" when missing |
| Records.Score | Lichess_app.py:58 | the score when present, 0 when missing |
| Records.FirstPlace | Lichess_app.py:57 | 1 exactly when the rank is present and equal to 1, otherwise 0 |
| Records.SecondPlace | Lichess_app.py:129 | 1 exactly when the rank is present and equal to 2, otherwise 0 |
| Records.ThirdPlace | Lichess_app.py:130 | 1 exactly when the rank is present and equal to 3, otherwise 0 |
| Records.Podium | Lichess_app.py:131 | the range test with rank default 9999999 counts exactly a first, second or third place, so never an unranked record |
| Records.TopTen | Lichess_app.py:132 | 1 exactly when the rank is present and in 1..10; never an unranked record; at least the podium weight |
| Records.Measure | Lichess_app.py:56-58 | a sum of non-negative weights is non-negative, and a sum of weights at most 1 is at most the number of records |
| Records.MeasureAppend | Lichess_app.py:56-58 | summing over a concatenation is the sum of the two parts |
| Records.MeasureUnit | Lichess_app.py:56 | counting every record gives `len(...)` |
| Records.MeasureSplit | Lichess_app.py:131 | a weight that is pointwise the sum of two weights sums to the sum of their totals |
| Records.MeasureMonotone | Lichess_app.py:131-132 | a pointwise smaller weight has a smaller total |
| Records.MeasureZero | Lichess_app.py:56-58 | the zero weight sums to 0 |
| Aggregate.GroupAllCorrect | Lichess_app.py:67-70 | the keys are distinct and are exactly the names that occur (missing name read as "Unknown"), in order of first appearance; each group holds exactly the records of its name, in input order |
| Aggregate.AddRecord | Lichess_app.py:69-70 | no contract of its own: one iteration of the grouping loop; `Aggregate.GroupAllCorrect` states the effect of all iterations |
| Aggregate.GroupAll | Lichess_app.py:67-70 | no contract of its own: the grouping loop; `Aggregate.GroupAllCorrect` states its keys and groups against the reference `Members` and `FirstIndex` |
| Aggregate.LookupIsMembers | Lichess_app.py:67-70 | looking up any name, present or not, in the grouping gives the records of that name in input order; an absent name gives the empty list |
| Aggregate.Lookup | Lichess_app.py:126 | no contract of its own: `grouped[selected_name]` on a defaultdict; `Aggregate.LookupIsMembers` states what it returns for every name |
| Aggregate.DistinctIffNoRepeats | Lichess_app.py:67-70 | a list has no repeated element exactly when every element occurs in it at most once |
| Aggregate.MembersMeasureBounded | Lichess_app.py:56-58 | for a non-negative weight, a group's total lies between 0 and the total over all records |
| Aggregate.GroupingPartitions | Lichess_app.py:56-58 | for every per-record weight, the sum over all records equals the sum of the group totals, so each record counts in exactly one group |
| Aggregate.GroupSizesSumToTotal | Lichess_app.py:56 | the group sizes add up to `num_total` |
| Aggregate.FirstPlacesSumOverGroups | Lichess_app.py:57 | the overall first-place count is the sum of the groups' rank-1 counts |
| Aggregate.TotalPointsSumOverGroups | Lichess_app.py:58 | overall points equal the sum of the groups' points, a missing score counting 0 |
| Aggregate.MaxPoints | Lichess_app.py:134 | 0 for an empty group; otherwise a score of the group that no score of the group exceeds |
| Aggregate.BestPerf | Lichess_app.py:135-138 | absent iff no record has a performance; otherwise a performance of the group that no present performance exceeds |
| Aggregate.ComputeGroupStats | Lichess_app.py:126-138 | played is the group size; podium = 1st + 2nd + 3rd; podium <= top-10 <= played; the rank counts are non-negative; the best score is 0 for an empty group and otherwise a score of the group that no score exceeds; the best performance is absent iff no record has one, and otherwise a present performance that none exceeds |
| Aggregate.GroupStatsSnoc | Lichess_app.py:126-138 | appending any record raises played by one, each rank count by that record's own test, the points by its score, and updates the best score and best performance by comparison with its own; with `Aggregate.EmptyGroupStats` this fixes every field for every group |
| Aggregate.EmptyGroupStats | Lichess_app.py:127-138 | an empty group has every count and total 0, max points 0 and no best performance |
| Aggregate.UnrankedCountsOnlyAsPlayed | Lichess_app.py:127-132 | a record without a rank raises played by one and the points by its score, and leaves every rank-based count unchanged |
| Series.Entries | Lichess_app.py:141-147 | the entries are exactly those of the records with a present, non-zero start time; their number and points total are the dated count and dated score sum |
| Series.Dated | Lichess_app.py:145 | no contract of its own (a predicate): `if timestamp:`, true for a present non-zero start time; `Series.Entries` states which records it admits |
| Series.EntriesNonNegative | Lichess_app.py:141-147 | when no score in the group is negative, no entry has negative points |
| Series.InsertEntryPermutes | Lichess_app.py:151 | inserting an entry adds exactly it to the multiset and its points to the total |
| Series.InsertEntrySorted | Lichess_app.py:151 | inserting into a date-sorted list keeps it date-sorted |
| Series.InsertEntry | Lichess_app.py:151 | inserting adds one entry; `Series.InsertEntryPermutes` and `Series.InsertEntrySorted` state what it inserts and that order is kept |
| Series.SortByDate | Lichess_app.py:151 | sorting keeps the length; `Series.SortByDateCorrect` states the rest |
| Series.EntriesMultiplicity | Lichess_app.py:141-147 | each entry occurs in the chart data exactly as many times as there are dated records of the group producing it |
| Series.BuildSeriesMultiplicity | Lichess_app.py:141-152 | each (date, points) pair occurs in the series exactly as many times as there are dated records of the group producing it |
| Series.SortByDateCorrect | Lichess_app.py:151 | sorting by date gives a date-sorted permutation with the same points total |
| Series.Accumulate | Lichess_app.py:152 | each row keeps its date and points, and its cumulative value is the points sum of the rows up to and including it |
| Series.CumulativeRecurrence | Lichess_app.py:152 | Cumulative[0] = Points[0], Cumulative[i] = Cumulative[i-1] + Points[i], and the last value is the total of the points |
| Series.BuildSeriesCorrect | Lichess_app.py:141-152 | the series is date-sorted, holds exactly the group's dated entries as a multiset, and its last cumulative value is the dated score sum |
| Series.BuildSeries | Lichess_app.py:141-152 | no contract of its own: entries, then sort by date, then the cumulative column; `Series.BuildSeriesCorrect` and `Series.BuildSeriesMultiplicity` characterise it |
| Series.CumulativeMonotone | Lichess_app.py:141-152 | when no score in the group is negative, the cumulative column never decreases |
| Series.FilterFrom | Lichess_app.py:168-177 | a row is kept iff it is in the frame and dated on or after the bound |
| Series.FilterSortedIsSuffix | Lichess_app.py:166-179 | on a date-sorted frame the filter drops exactly the leading rows before the bound and keeps the rest unchanged |
| Series.ApplyPreset | Lichess_app.py:166-179 | ALL and unrecognised presets return the frame unchanged; the other presets keep exactly the rows dated on or after their bound |
| Series.PresetBound | Lichess_app.py:166-179 | no contract of its own: the lower date bound each preset tests, none for ALL or an unknown preset; `Series.ApplyPreset` states the resulting filter |
| Series.ApplyPresetKeepsSuffix | Lichess_app.py:151-179 | on a date-sorted series, which the built series is, the filtered series is a suffix: it stays sorted and its rows keep the cumulative values of the full series |
| Dashboard.SortedNamesCorrect | Lichess_app.py:67-121 | `sorted_names` lists every occurring name exactly once, in non-decreasing key order; names with equal keys keep the order of the grouping keys |
| Dashboard.SortedNames | Lichess_app.py:67-121 | no contract of its own: the grouping keys sorted by `final_sort_key`; `Dashboard.SortedNamesCorrect` characterises the list |
| Dashboard.RenderPage | Lichess_app.py:52-179 | the selected group's played and first-place counts never exceed the overall ones; the statistics are those of the records carrying the selected name, and the chart is their series filtered by the preset; a name that occurs in no record gives empty-group statistics and an empty chart |
| Dashboard.HourlyBulletExample | Lichess_app.py:126-152 | two hourly bullet arenas (won, then fifth, 20 and 10 points) give played 2, one win, 30 points, max 20 and cumulative [20, 30] |
| Dashboard.DailyBeforeWeeklyExample | Lichess_app.py:110-121 | "Daily Blitz" is listed strictly before "Weekly Rapid" |

## Left out

- The HTTP fetch, NDJSON parsing, the API token and status handling (Lichess_app.py:14-42). These are network I/O. The model starts from the sequence of records.
- Streamlit widgets, session state, callbacks, HTML rendering and number formatting, including the `best_perf if best_perf else 'N/A'` display (which would also show N/A for a best performance of 0). This is presentation only.
- The Altair chart and the per-tournament/cumulative view switch. They only choose what to plot.
- `pd.Timestamp.today().normalize()` and the calendar-month and calendar-year offsets. They depend on the wall clock and on pandas. The five preset bounds are an input (`Series.Bounds`).
- Text.ToLower: models `str.lower()` on ASCII letters only. Python lower-cases all of Unicode, and a few characters (such as U+0130) change length when lower-cased.
- JSON `null` values: a field present with value `null` (for example a `fullName`, `rank` or `score` of `null`) makes the Python code fail or compare `None`. The model only knows absent or present values.
- Non-integer field values: for example, a string score. The model types every field as an integer or a string.
- Series.SortByDateCorrect: pandas' default `sort_values` is not stable, so the order of rows with equal dates, and hence the cumulative values at ties, is unspecified. The model sorts stably but claims only sortedness and permutation.
- Timestamps outside the range `pd.to_datetime` accepts, which pandas rejects with an error.

=== FILE: aggregate.dfy ===
/**
 * The aggregator: the overall statistics of the page, the grouping of the
 * records by tournament name (a dict with insertion-ordered keys whose
 * missing keys read as empty lists), and the statistics of one group.
 */
module Aggregate {
  import opened Options
  import opened Records

  datatype GlobalStats = GlobalStats(numTotal: int, firstPlaces: int, totalPoints: int)

  /** The overall statistics: number of tournaments, first places, and total points. */
  function ComputeGlobalStats(rs: seq<Record>): (st: GlobalStats)
    ensures st.numTotal == |rs|
    ensures 0 <= st.firstPlaces <= st.numTotal
  {
    MeasureUnit(rs);
    MeasureMonotone(rs, FirstPlace, Unit);
    assert 0 <= Measure(rs, FirstPlace) by {
      MeasureMonotone(rs, Zero, FirstPlace);
      MeasureZero(rs);
    }
    GlobalStats(|rs|, Measure(rs, FirstPlace), Measure(rs, ScoreWeight))
  }

  // ---------------------------------------------------------------------------
  // Grouping by tournament name.

  /** `grouped`: the keys in insertion order, and the list of records under each key. */
  datatype Grouping = Grouping(keys: seq<string>, groups: map<string, seq<Record>>)

  /** `grouped[k]` on a defaultdict: an absent key reads as the empty list. */
  function Lookup(groups: map<string, seq<Record>>, k: string): seq<Record> {
    if k in groups then groups[k] else []
  }

  /** One iteration of the grouping loop: append `r` to the list of its name, creating it if new. */
  function AddRecord(g: Grouping, r: Record): Grouping {
    var n := GroupName(r);
    if n in g.groups then Grouping(g.keys, g.groups[n := g.groups[n] + [r]])
    else Grouping(g.keys + [n], g.groups[n := [r]])
  }

  /** The grouping loop over all records, in input order. */
  function GroupAll(rs: seq<Record>): Grouping {
    if |rs| == 0 then Grouping([], map[])
    else AddRecord(GroupAll(rs[..|rs| - 1]), rs[|rs| - 1])
  }

  /** Reference definition of a group: the records named `k`, in input order. */
  function Members(rs: seq<Record>, k: string): (m: seq<Record>)
    ensures |m| <= |rs|
  {
    if |rs| == 0 then []
    else Members(rs[..|rs| - 1], k) + (if GroupName(rs[|rs| - 1]) == k then [rs[|rs| - 1]] else [])
  }

  /** Some record is named `k`. */
  predicate NameOccurs(rs: seq<Record>, k: string) {
    exists i :: 0 <= i < |rs| && GroupName(rs[i]) == k
  }

  /** Position of the first record named `k`; `|rs|` when there is none. */
  function FirstIndex(rs: seq<Record>, k: string): (i: nat)
    ensures i <= |rs|
  {
    if |rs| == 0 then 0
    else if GroupName(rs[0]) == k then 0
    else 1 + FirstIndex(rs[1..], k)
  }

  lemma {:induction false} FirstIndexFinds(rs: seq<Record>, k: string)
    ensures FirstIndex(rs, k) < |rs| <==> NameOccurs(rs, k)
    ensures FirstIndex(rs, k) < |rs| ==> GroupName(rs[FirstIndex(rs, k)]) == k
  {
    if |rs| > 0 && GroupName(rs[0]) != k {
      FirstIndexFinds(rs[1..], k);
      if NameOccurs(rs, k) {
        var i :| 0 <= i < |rs| && GroupName(rs[i]) == k;
        assert rs[1..][i - 1] == rs[i];
      }
      if NameOccurs(rs[1..], k) {
        var i :| 0 <= i < |rs[1..]| && GroupName(rs[1..][i]) == k;
        assert rs[i + 1] == rs[1..][i];
      }
    }
  }

  /** Appending a record does not move the first occurrence of a name already present. */
  lemma {:induction false} FirstIndexSnoc(rs: seq<Record>, r: Record, k: string)
    ensures FirstIndex(rs, k) < |rs| ==> FirstIndex(rs + [r], k) == FirstIndex(rs, k)
    ensures FirstIndex(rs, k) == |rs| && GroupName(r) == k ==> FirstIndex(rs + [r], k) == |rs|
  {
    if |rs| > 0 {
      assert (rs + [r])[1..] == rs[1..] + [r];
      FirstIndexSnoc(rs[1..], r, k);
    }
  }

  predicate Distinct(ks: seq<string>) {
    forall i, j :: 0 <= i < j < |ks| ==> ks[i] != ks[j]
  }

  /** What the grouping loop builds, stated against the input records. */
  ghost predicate GroupsOf(g: Grouping, rs: seq<Record>) {
    && Distinct(g.keys)
    && (forall k :: k in g.groups <==> k in g.keys)
    && (forall k :: k in g.groups <==> NameOccurs(rs, k))
    && (forall k :: k in g.groups ==> g.groups[k] == Members(rs, k))
    && (forall i, j :: 0 <= i < j < |g.keys| ==> FirstIndex(rs, g.keys[i]) < FirstIndex(rs, g.keys[j]))
  }

  lemma MembersSnoc(rs: seq<Record>, r: Record, k: string)
    ensures Members(rs + [r], k) == Members(rs, k) + (if GroupName(r) == k then [r] else [])
  {
    assert (rs + [r])[..|rs|] == rs;
  }

  lemma NameOccursSnoc(rs: seq<Record>, r: Record, k: string)
    ensures NameOccurs(rs + [r], k) <==> NameOccurs(rs, k) || GroupName(r) == k
  {
    if NameOccurs(rs + [r], k) && GroupName(r) != k {
      var i :| 0 <= i < |rs| + 1 && GroupName((rs + [r])[i]) == k;
      assert rs[i] == (rs + [r])[i];
    }
    if NameOccurs(rs, k) {
      var i :| 0 <= i < |rs| && GroupName(rs[i]) == k;
      assert (rs + [r])[i] == rs[i];
    }
    if GroupName(r) == k {
      assert (rs + [r])[|rs|] == r;
    }
  }

  /**
   * Grouping is a partition by name: the keys are the distinct names in
   * order of first appearance, and each group holds exactly the records of
   * that name in input order.
   */
  lemma {:induction false} GroupAllCorrect(rs: seq<Record>)
    ensures GroupsOf(GroupAll(rs), rs)
  {
    if |rs| > 0 {
      var rs', r := rs[..|rs| - 1], rs[|rs| - 1];
      assert rs == rs' + [r];
      var g := GroupAll(rs');
      GroupAllCorrect(rs');
      var n := GroupName(r);
      var g' := GroupAll(rs);
      assert g' == AddRecord(g, r);
      forall k
        ensures k in g'.groups <==> NameOccurs(rs, k)
        ensures k in g'.groups ==> g'.groups[k] == Members(rs, k)
      {
        NameOccursSnoc(rs', r, k);
        MembersSnoc(rs', r, k);
        if k != n && k in g.groups {
          assert g'.groups[k] == g.groups[k];
        }
        if k == n && k !in g.groups {
          MembersEmpty(rs', k);
        }
      }
      forall k | k in g.keys
        ensures FirstIndex(rs, k) == FirstIndex(rs', k) < |rs'|
      {
        FirstIndexFinds(rs', k);
        FirstIndexSnoc(rs', r, k);
      }
      if n !in g.groups {
        FirstIndexFinds(rs', n);
        FirstIndexSnoc(rs', r, n);
        assert FirstIndex(rs, n) == |rs'|;
        forall i, j | 0 <= i < j < |g'.keys|
          ensures FirstIndex(rs, g'.keys[i]) < FirstIndex(rs, g'.keys[j])
        {
          assert g'.keys[i] == g.keys[i] && g.keys[i] in g.keys;
          if j < |g.keys| {
            assert g'.keys[j] == g.keys[j] && g.keys[j] in g.keys;
          }
        }
        forall i, j | 0 <= i < j < |g'.keys|
          ensures g'.keys[i] != g'.keys[j]
        {
          assert g'.keys[i] == g.keys[i] && g.keys[i] in g.keys;
        }
      } else {
        forall i, j | 0 <= i < j < |g'.keys|
          ensures FirstIndex(rs, g'.keys[i]) < FirstIndex(rs, g'.keys[j])
        {
          assert g.keys[i] in g.keys && g.keys[j] in g.keys;
        }
      }
    }
  }

  /** `grouped[name]` for any name, present or not, is the records of that name in input order. */
  lemma LookupIsMembers(rs: seq<Record>, k: string)
    ensures Lookup(GroupAll(rs).groups, k) == Members(rs, k)
    ensures !NameOccurs(rs, k) ==> Members(rs, k) == []
  {
    GroupAllCorrect(rs);
    if k !in GroupAll(rs).groups {
      MembersEmpty(rs, k);
    }
  }

  lemma {:induction false} MembersEmpty(rs: seq<Record>, k: string)
    requires !NameOccurs(rs, k)
    ensures Members(rs, k) == []
  {
    if |rs| > 0 {
      var rs' := rs[..|rs| - 1];
      MembersEmpty(rs', k);
      assert GroupName(rs[|rs| - 1]) != k;
    }
  }

  // ---------------------------------------------------------------------------
  // Sums over the groups.

  /** Sum of the totals of `w` over the groups listed in `keys`. */
  function SumOver(keys: seq<string>, groups: map<string, seq<Record>>, w: Record -> int): int {
    if |keys| == 0 then 0
    else SumOver(keys[..|keys| - 1], groups, w) + Measure(Lookup(groups, keys[|keys| - 1]), w)
  }

  /** The sum only reads the groups that are listed. */
  lemma {:induction false} SumOverFrame(keys: seq<string>, m1: map<string, seq<Record>>, m2: map<string, seq<Record>>, w: Record -> int)
    requires forall i :: 0 <= i < |keys| ==> Lookup(m1, keys[i]) == Lookup(m2, keys[i])
    ensures SumOver(keys, m1, w) == SumOver(keys, m2, w)
  {
    if |keys| > 0 {
      SumOverFrame(keys[..|keys| - 1], m1, m2, w);
    }
  }

  /** Appending `r` to one listed group adds `w(r)` to the sum. */
  lemma {:induction false} SumOverBump(keys: seq<string>, m: map<string, seq<Record>>, n: string, r: Record, w: Record -> int)
    requires Distinct(keys)
    requires n in keys && n in m
    ensures SumOver(keys, m[n := m[n] + [r]], w) == SumOver(keys, m, w) + w(r)
  {
    var m' := m[n := m[n] + [r]];
    var pre, last := keys[..|keys| - 1], keys[|keys| - 1];
    MeasureSnoc(m[n], r, w);
    if last == n {
      assert n !in pre;
      forall i | 0 <= i < |pre|
        ensures Lookup(m', pre[i]) == Lookup(m, pre[i])
      {
        assert pre[i] in pre;
      }
      SumOverFrame(pre, m', m, w);
    } else {
      assert n in pre by {
        var i :| 0 <= i < |keys| && keys[i] == n;
        assert pre[i] == n;
      }
      assert Distinct(pre) by {
        forall i, j | 0 <= i < j < |pre|
          ensures pre[i] != pre[j]
        {
          assert pre[i] == keys[i] && pre[j] == keys[j];
        }
      }
      SumOverBump(pre, m, n, r, w);
    }
  }

  /**
   * Every record is counted in exactly one group: for any per-record weight,
   * its total over all records equals the sum of its totals over the groups.
   */
  lemma {:induction false} GroupingPartitions(rs: seq<Record>, w: Record -> int)
    ensures SumOver(GroupAll(rs).keys, GroupAll(rs).groups, w) == Measure(rs, w)
  {
    if |rs| > 0 {
      var rs', r := rs[..|rs| - 1], rs[|rs| - 1];
      var g := GroupAll(rs');
      var n := GroupName(r);
      GroupingPartitions(rs', w);
      GroupAllCorrect(rs');
      if n in g.groups {
        SumOverBump(g.keys, g.groups, n, r, w);
      } else {
        var m' := g.groups[n := [r]];
        forall i | 0 <= i < |g.keys|
          ensures Lookup(m', g.keys[i]) == Lookup(g.groups, g.keys[i])
        {
          assert g.keys[i] in g.keys;
        }
        SumOverFrame(g.keys, m', g.groups, w);
        assert (g.keys + [n])[..|g.keys|] == g.keys;
        MeasureSnoc([], r, w);
        assert [] + [r] == [r];
      }
    }
  }

  /** The group sizes add up to the number of tournaments. */
  lemma GroupSizesSumToTotal(rs: seq<Record>)
    ensures SumOver(GroupAll(rs).keys, GroupAll(rs).groups, Unit) == ComputeGlobalStats(rs).numTotal
  {
    GroupingPartitions(rs, Unit);
    MeasureUnit(rs);
  }

  /** The overall first-place count is the sum of the groups' first-place counts. */
  lemma FirstPlacesSumOverGroups(rs: seq<Record>)
    ensures SumOver(GroupAll(rs).keys, GroupAll(rs).groups, FirstPlace) == ComputeGlobalStats(rs).firstPlaces
  {
    GroupingPartitions(rs, FirstPlace);
  }

  /** The overall points total is the sum of the groups' points totals. */
  lemma TotalPointsSumOverGroups(rs: seq<Record>)
    ensures SumOver(GroupAll(rs).keys, GroupAll(rs).groups, ScoreWeight) == ComputeGlobalStats(rs).totalPoints
  {
    GroupingPartitions(rs, ScoreWeight);
  }

  // ---------------------------------------------------------------------------
  // Statistics of one group.

  datatype GroupStats = GroupStats(
    played: int,
    first: int,
    second: int,
    third: int,
    podium: int,
    top10: int,
    totalPoints: int,
    maxPoints: int,
    bestPerf: Option<int>)

  /** `max(scores)` of a non-empty group, 0 for the empty group. */
  function MaxPoints(group: seq<Record>): (m: int)
    ensures |group| == 0 ==> m == 0
    ensures forall i :: 0 <= i < |group| ==> Score(group[i]) <= m
    ensures |group| > 0 ==> exists i :: 0 <= i < |group| && Score(group[i]) == m
  {
    if |group| == 0 then 0
    else if |group| == 1 then Score(group[0])
    else
      var prev := MaxPoints(group[..|group| - 1]);
      var last := Score(group[|group| - 1]);
      if last > prev then last else prev
  }

  /** The larger of two optional performances, absent only when both are. */
  function MaxPerf(a: Option<int>, b: Option<int>): Option<int> {
    match (a, b)
    case (None, _) => b
    case (_, None) => a
    case (Some(x), Some(y)) => if y > x then b else a
  }

  /** `max(performances that are present, default=None)`. */
  function BestPerf(group: seq<Record>): (p: Option<int>)
    ensures p.None? <==> forall i :: 0 <= i < |group| ==> group[i].performance.None?
    ensures p.Some? ==> exists i :: 0 <= i < |group| && group[i].performance == p
    ensures p.Some? ==> forall i :: 0 <= i < |group| && group[i].performance.Some? ==> group[i].performance.value <= p.value
  {
    if |group| == 0 then None
    else MaxPerf(BestPerf(group[..|group| - 1]), group[|group| - 1].performance)
  }

  /** The statistics panel of the selected group. */
  function ComputeGroupStats(group: seq<Record>): (st: GroupStats)
    ensures st.played == |group|
    ensures 0 <= st.first && 0 <= st.second && 0 <= st.third
    ensures st.podium == st.first + st.second + st.third
    ensures st.podium <= st.top10 <= st.played
    ensures |group| == 0 ==> st.maxPoints == 0
    ensures forall i :: 0 <= i < |group| ==> Score(group[i]) <= st.maxPoints
    ensures |group| > 0 ==> exists i :: 0 <= i < |group| && Score(group[i]) == st.maxPoints
    ensures st.bestPerf.None? <==> forall i :: 0 <= i < |group| ==> group[i].performance.None?
    ensures st.bestPerf.Some? ==> exists i :: 0 <= i < |group| && group[i].performance == st.bestPerf
    ensures st.bestPerf.Some? ==>
              forall i :: 0 <= i < |group| && group[i].performance.Some? ==> group[i].performance.value <= st.bestPerf.value
  {
    MeasureUnit(group);
    RankCountsNonNegative(group);
    MeasureSplit(group, Podium, FirstPlace, SecondOrThird);
    MeasureSplit(group, SecondOrThird, SecondPlace, ThirdPlace);
    MeasureMonotone(group, Podium, TopTen);
    MeasureMonotone(group, TopTen, Unit);
    GroupStats(
      |group|,
      Measure(group, FirstPlace),
      Measure(group, SecondPlace),
      Measure(group, ThirdPlace),
      Measure(group, Podium),
      Measure(group, TopTen),
      Measure(group, ScoreWeight),
      MaxPoints(group),
      BestPerf(group))
  }

  function SecondOrThird(r: Record): int { SecondPlace(r) + ThirdPlace(r) }

  lemma RankCountsNonNegative(group: seq<Record>)
    ensures 0 <= Measure(group, FirstPlace)
    ensures 0 <= Measure(group, SecondPlace)
    ensures 0 <= Measure(group, ThirdPlace)
  {
    MeasureZero(group);
    MeasureMonotone(group, Zero, FirstPlace);
    MeasureMonotone(group, Zero, SecondPlace);
    MeasureMonotone(group, Zero, ThirdPlace);
  }

  /** The empty group: every count and total is 0 and there is no best performance. */
  lemma EmptyGroupStats()
    ensures ComputeGroupStats([]) == GroupStats(0, 0, 0, 0, 0, 0, 0, 0, None)
  {
  }

  /**
   * Appending any record to the group: played grows by one, each count by
   * that record's weight, the points by its score, the best score and the
   * best performance by a comparison with its own.
   */
  lemma GroupStatsSnoc(group: seq<Record>, r: Record)
    ensures var before, after := ComputeGroupStats(group), ComputeGroupStats(group + [r]);
      && after.played == before.played + 1
      && after.first == before.first + FirstPlace(r)
      && after.second == before.second + SecondPlace(r)
      && after.third == before.third + ThirdPlace(r)
      && after.podium == before.podium + Podium(r)
      && after.top10 == before.top10 + TopTen(r)
      && after.totalPoints == before.totalPoints + Score(r)
      && after.maxPoints == (if |group| == 0 || before.maxPoints < Score(r) then Score(r) else before.maxPoints)
      && after.bestPerf == MaxPerf(before.bestPerf, r.performance)
  {
    MeasureSnoc(group, r, ScoreWeight);
    MeasureSnoc(group, r, FirstPlace);
    MeasureSnoc(group, r, SecondPlace);
    MeasureSnoc(group, r, ThirdPlace);
    MeasureSnoc(group, r, Podium);
    MeasureSnoc(group, r, TopTen);
    assert (group + [r])[..|group|] == group;
  }

  /** A record without a rank adds to the number played and to the points, but to no rank-based count. */
  lemma UnrankedCountsOnlyAsPlayed(group: seq<Record>, r: Record)
    requires r.rank.None?
    ensures var before, after := ComputeGroupStats(group), ComputeGroupStats(group + [r]);
      && after.played == before.played + 1
      && after.first == before.first && after.second == before.second && after.third == before.third
      && after.podium == before.podium && after.top10 == before.top10
      && after.totalPoints == before.totalPoints + Score(r)
  {
    MeasureSnoc(group, r, ScoreWeight);
    MeasureSnoc(group, r, FirstPlace);
    MeasureSnoc(group, r, SecondPlace);
    MeasureSnoc(group, r, ThirdPlace);
    MeasureSnoc(group, r, Podium);
    MeasureSnoc(group, r, TopTen);
  }

  /** `Distinct` is the same as every element occurring at most once. */
  lemma {:induction false} DistinctIffNoRepeats(s: seq<string>)
    ensures Distinct(s) <==> forall x :: multiset(s)[x] <= 1
  {
    if |s| > 0 {
      var a, t := s[0], s[1..];
      assert s == [a] + t;
      assert multiset(s) == multiset{a} + multiset(t);
      DistinctIffNoRepeats(t);
      if Distinct(s) {
        assert Distinct(t) by {
          forall i, j | 0 <= i < j < |t|
            ensures t[i] != t[j]
          {
            assert t[i] == s[i + 1] && t[j] == s[j + 1];
          }
        }
        assert a !in t;
      } else {
        var i, j :| 0 <= i < j < |s| && s[i] == s[j];
        if i == 0 {
          assert s[j] == t[j - 1];
          assert multiset(s)[a] >= 2;
        } else {
          assert t[i - 1] == s[i] && t[j - 1] == s[j];
          assert !Distinct(t);
          var x :| multiset(t)[x] > 1;
          assert multiset(s)[x] > 1;
        }
      }
    }
  }

  /** A group's totals never exceed the overall totals, for any non-negative weight. */
  lemma {:induction false} MembersMeasureBounded(rs: seq<Record>, k: string, w: Record -> int)
    requires forall r :: w(r) >= 0
    ensures 0 <= Measure(Members(rs, k), w) <= Measure(rs, w)
  {
    if |rs| > 0 {
      var rs', r := rs[..|rs| - 1], rs[|rs| - 1];
      MembersMeasureBounded(rs', k, w);
      if GroupName(r) == k {
        MeasureSnoc(Members(rs', k), r, w);
      } else {
        assert Members(rs, k) == Members(rs', k);
      }
    }
  }
}

=== FILE: classifier.dfy ===
/**
 * The cadence classifier: a tournament name is tagged hourly, daily,
 * weekly, monthly or yearly by its (case-insensitive) prefix, shield when it
 * mentions "shield" anywhere, and other otherwise.
 */
module Classifier {
  import opened Text

  datatype Frequency = Hourly | Daily | Weekly | Monthly | Yearly | Shield | Other

  /** The five cadences that are recognised by a name prefix. */
  predicate IsCadence(f: Frequency) {
    f != Shield && f != Other
  }

  /** The tag string the source returns for each category; it is also the prefix or keyword that selects it. */
  function Tag(f: Frequency): string {
    match f
    case Hourly => "hourly"
    case Daily => "daily"
    case Weekly => "weekly"
    case Monthly => "monthly"
    case Yearly => "yearly"
    case Shield => "shield"
    case Other => "other"
  }

  /** Some cadence tag is a prefix of the lower-cased name. */
  predicate HasCadencePrefix(lname: string) {
    StartsWith(lname, "hourly") || StartsWith(lname, "daily") || StartsWith(lname, "weekly")
    || StartsWith(lname, "monthly") || StartsWith(lname, "yearly")
  }

  /** `get_frequency`: prefix checks first, in source order, then the "shield" substring, then other. */
  function GetFrequency(name: string): Frequency {
    var lname := ToLower(name);
    if StartsWith(lname, "hourly") then Hourly
    else if StartsWith(lname, "daily") then Daily
    else if StartsWith(lname, "weekly") then Weekly
    else if StartsWith(lname, "monthly") then Monthly
    else if StartsWith(lname, "yearly") then Yearly
    else if Contains(lname, "shield") then Shield
    else Other
  }

  /** `frequency_order`: the rank of each category in the selection list. */
  function FrequencyRank(f: Frequency): (r: int)
    ensures 1 <= r <= 7
  {
    match f
    case Hourly => 1
    case Daily => 2
    case Weekly => 3
    case Monthly => 4
    case Yearly => 5
    case Shield => 6
    case Other => 7
  }

  /** Distinct categories get distinct ranks, so the rank table is a total order on categories. */
  lemma FrequencyRankInjective(f: Frequency, g: Frequency)
    requires FrequencyRank(f) == FrequencyRank(g)
    ensures f == g
  {
  }

  /** No lower-cased name starts with two different cadence tags, so the order of the prefix checks is immaterial. */
  lemma {:induction false} CadencePrefixesExclusive(lname: string, f: Frequency, g: Frequency)
    requires IsCadence(f) && IsCadence(g)
    requires StartsWith(lname, Tag(f)) && StartsWith(lname, Tag(g))
    ensures f == g
  {
    assert lname[0] == Tag(f)[0] by { assert lname[..|Tag(f)|][0] == lname[0]; }
    assert lname[0] == Tag(g)[0] by { assert lname[..|Tag(g)|][0] == lname[0]; }
    // the five tags start with five different letters
  }

  /**
   * Declarative reading of the classifier, independent of the order of the
   * if-chain: a cadence is chosen exactly when its tag is a prefix; shield
   * exactly when "shield" occurs and no cadence prefix does; other otherwise.
   */
  lemma {:induction false} GetFrequencyCharacterised(name: string, f: Frequency)
    ensures IsCadence(f) ==> (GetFrequency(name) == f <==> StartsWith(ToLower(name), Tag(f)))
    ensures GetFrequency(name) == Shield <==> !HasCadencePrefix(ToLower(name)) && Contains(ToLower(name), "shield")
    ensures GetFrequency(name) == Other <==> !HasCadencePrefix(ToLower(name)) && !Contains(ToLower(name), "shield")
  {
    var lname := ToLower(name);
    if IsCadence(f) && StartsWith(lname, Tag(f)) {
      var g := GetFrequency(name);
      assert IsCadence(g) && StartsWith(lname, Tag(g));
      CadencePrefixesExclusive(lname, f, g);
    }
  }

  /** A prefix check wins over the "shield" keyword: "Daily Shield Arena" is daily. */
  lemma PrefixBeatsShield(name: string, f: Frequency)
    requires IsCadence(f)
    requires StartsWith(ToLower(name), Tag(f))
    requires Contains(ToLower(name), "shield")
    ensures GetFrequency(name) == f
  {
    GetFrequencyCharacterised(name, f);
  }

  /** Classification depends only on the lower-cased name. */
  lemma GetFrequencyCaseInsensitive(a: string, b: string)
    requires ToLower(a) == ToLower(b)
    ensures GetFrequency(a) == GetFrequency(b)
    ensures GetFrequency(a) == GetFrequency(ToLower(a))
  {
    ToLowerIdempotent(a);
  }

  /** The empty name is classified as other. */
  lemma EmptyNameIsOther()
    ensures GetFrequency("") == Other
  {
    assert !Contains(ToLower(""), "shield");
  }
}

=== FILE: dashboard.dfy ===
/**
 * The page pipeline: overall statistics, the sorted selection list, the
 * statistics of the selected group and its date-filtered points series.
 */
module Dashboard {
  import opened Options
  import opened Text
  import opened Classifier
  import opened Records
  import opened Aggregate
  import opened Ranker
  import opened Series

  /** `sorted_names`: the group keys sorted by `final_sort_key`. */
  function SortedNames(rs: seq<Record>): seq<string> {
    SortNames(GroupAll(rs).keys)
  }

  /**
   * The selection list names every tournament name of the records exactly
   * once, in non-decreasing sort-key order, and names with the same key
   * (case-only variants) stay in the order of the grouping keys, which is
   * the order of first appearance.
   */
  lemma SortedNamesCorrect(rs: seq<Record>)
    ensures forall k :: k in SortedNames(rs) <==> NameOccurs(rs, k)
    ensures Distinct(SortedNames(rs))
    ensures SortedByKey(SortedNames(rs), FinalSortKey)
    ensures forall k :: WithKey(SortedNames(rs), k, FinalSortKey) == WithKey(GroupAll(rs).keys, k, FinalSortKey)
  {
    var keys := GroupAll(rs).keys;
    GroupAllCorrect(rs);
    SortByCorrect(keys, FinalSortKey);
    DistinctIffNoRepeats(keys);
    DistinctIffNoRepeats(SortedNames(rs));
    forall k
      ensures k in SortedNames(rs) <==> NameOccurs(rs, k)
    {
      assert k in SortedNames(rs) <==> k in multiset(SortedNames(rs));
      assert k in keys <==> k in multiset(keys);
    }
  }

  datatype Page = Page(overall: GlobalStats, names: seq<string>, stats: GroupStats, chart: seq<Point>)

  /**
   * One rendering of the page for the name picked in the selection list and
   * the chosen date-range preset; `bounds` are the preset bounds for today.
   */
  function RenderPage(rs: seq<Record>, selected: string, preset: string, bounds: Bounds): (p: Page)
    ensures p.stats.played <= p.overall.numTotal
    ensures p.stats.first <= p.overall.firstPlaces
    ensures !NameOccurs(rs, selected) ==> p.stats == ComputeGroupStats([]) && p.chart == []
    ensures p.stats == ComputeGroupStats(Members(rs, selected))
    ensures p.chart == ApplyPreset(BuildSeries(Members(rs, selected)), preset, bounds)
  {
    var g := GroupAll(rs);
    var group := Lookup(g.groups, selected);
    LookupIsMembers(rs, selected);
    MeasureUnit(rs);
    MeasureUnit(group);
    MembersMeasureBounded(rs, selected, Unit);
    MembersMeasureBounded(rs, selected, FirstPlace);
    Page(ComputeGlobalStats(rs), SortNames(g.keys), ComputeGroupStats(group), ApplyPreset(BuildSeries(group), preset, bounds))
  }

  // Two "Hourly Bullet Arena" records a day apart, won with 20 points and then fifth with 10.

  const ArenaName: string := "Hourly Bullet Arena"
  const ArenaWon: Record := Record(Some(ArenaName), Some(1700000000000), Some(1), Some(20), None)
  const ArenaFifth: Record := Record(Some(ArenaName), Some(1700086400000), Some(5), Some(10), None)

  lemma {:induction false} ArenaGroup()
    ensures Lookup(GroupAll([ArenaWon, ArenaFifth]).groups, ArenaName) == [ArenaWon, ArenaFifth]
  {
    var a, b := ArenaWon, ArenaFifth;
    assert [a, b][..1] == [a] && [a][..0] == [];
    assert GroupName(a) == ArenaName && GroupName(b) == ArenaName;
    var g1 := GroupAll([a]);
    assert g1 == AddRecord(Grouping([], map[]), a);
    assert g1 == Grouping([ArenaName], map[ArenaName := [a]]);
    assert GroupAll([a, b]) == AddRecord(g1, b);
  }

  lemma {:induction false} ArenaStats()
    ensures var st := ComputeGroupStats([ArenaWon, ArenaFifth]);
      && st.played == 2 && st.first == 1 && st.podium == 1 && st.top10 == 2
      && st.totalPoints == 30 && st.maxPoints == 20 && st.bestPerf == None
  {
    var a, b := ArenaWon, ArenaFifth;
    assert [a] + [b] == [a, b];
    assert [a][..0] == [];
    MeasureSnoc([a], b, FirstPlace);
    MeasureSnoc([a], b, Podium);
    MeasureSnoc([a], b, TopTen);
    MeasureSnoc([a], b, ScoreWeight);
  }

  lemma {:induction false} ArenaEntries()
    ensures Entries([ArenaWon, ArenaFifth]) == [Entry(1700000000000, 20), Entry(1700086400000, 10)]
  {
    var a, b := ArenaWon, ArenaFifth;
    assert Dated(a) && EntryOf(a) == Entry(1700000000000, 20);
    assert Dated(b) && EntryOf(b) == Entry(1700086400000, 10);
    assert [a][..0] == [];
    assert Entries([a]) == [Entry(1700000000000, 20)];
    assert [a, b][..1] == [a];
  }

  lemma {:induction false} ArenaChart()
    ensures BuildSeries([ArenaWon, ArenaFifth]) == [Point(1700000000000, 20, 20), Point(1700086400000, 10, 30)]
  {
    var es := [Entry(1700000000000, 20), Entry(1700086400000, 10)];
    ArenaEntries();
    assert SortByDate(es) == es by {
      assert es[1..] == [Entry(1700086400000, 10)];
    }
    assert RunningTotal(es, 0) == 20 by {
      assert es[..1][..0] == [];
    }
    assert RunningTotal(es, 1) == 30 by {
      assert es[..2] == es && es[..1][..0] == [] && es[..1] == [es[0]];
    }
  }

  /** The page for the two arenas: played 2, one win, 30 points, best score 20, cumulative 20 then 30. */
  lemma HourlyBulletExample()
    ensures var p := RenderPage([ArenaWon, ArenaFifth], ArenaName, "ALL", Bounds(0, 0, 0, 0, 0));
      && p.stats.played == 2 && p.stats.first == 1 && p.stats.podium == 1 && p.stats.top10 == 2
      && p.stats.totalPoints == 30 && p.stats.maxPoints == 20 && p.stats.bestPerf == None
      && |p.chart| == 2 && p.chart[0].cumulative == 20 && p.chart[1].cumulative == 30
  {
    ArenaGroup();
    ArenaStats();
    ArenaChart();
  }

  /** A daily blitz arena is listed before a weekly rapid one, whatever their time controls. */
  lemma DailyBeforeWeeklyExample()
    ensures KeyLe(FinalSortKey("Daily Blitz"), FinalSortKey("Weekly Rapid"))
    ensures !KeyLe(FinalSortKey("Weekly Rapid"), FinalSortKey("Daily Blitz"))
  {
    var d := ToLower("Daily Blitz");
    assert d[0] == 'd' && d[1] == 'a' && d[2] == 'i' && d[3] == 'l' && d[4] == 'y';
    assert StartsWith(d, "daily") by { assert d[..5] == "daily"; }
    var w := ToLower("Weekly Rapid");
    assert w[0] == 'w' && w[1] == 'e' && w[2] == 'e' && w[3] == 'k' && w[4] == 'l' && w[5] == 'y';
    assert StartsWith(w, "weekly") by { assert w[..6] == "weekly"; }
    GetFrequencyCharacterised("Daily Blitz", Daily);
    GetFrequencyCharacterised("Weekly Rapid", Weekly);
    FrequencyDominates("Daily Blitz", "Weekly Rapid");
  }
}

=== FILE: options.dfy ===
/** Optional values: the model's stand-in for a JSON field that may be absent. */
module Options {

  datatype Option<+T> = None | Some(value: T) {

    /** The wrapped value, or `default` when absent (Python's `dict.get(key, default)`). */
    function GetOr(default: T): T {
      match this
      case Some(v) => v
      case None => default
    }
  }
}

=== FILE: ranker.dfy ===
/**
 * The ranker: the `(frequency rank, time-control rank, lower-cased name)`
 * sort key of a tournament name, and the stable sort of the group names
 * by that key which produces the selection list.
 */
module Ranker {
  import opened Text
  import opened Classifier

  /** `time_control_order`, in its scan order: the more specific bullet and blitz tokens come first. */
  const TimeControls: seq<(string, int)> :=
    [("ultrabullet", 1), ("hyperbullet", 2), ("bullet", 3), ("superblitz", 4), ("blitz", 5), ("rapid", 6)]

  /** Time-control rank of a name that mentions none of the tokens: after every real one. */
  const NoTimeControl: int := 99999

  /** Each token's rank is its 1-based position in the scan order. */
  lemma TimeControlRanksArePositions()
    ensures forall i :: 0 <= i < |TimeControls| ==> TimeControls[i].1 == i + 1
  {
  }

  /** Index of the first token, scanning from `from` in table order, that is a substring of `lname`. */
  function FirstToken(lname: string, from: nat): (i: nat)
    requires from <= |TimeControls|
    ensures from <= i <= |TimeControls|
    ensures i < |TimeControls| ==> Contains(lname, TimeControls[i].0)
    ensures forall j :: from <= j < i ==> !Contains(lname, TimeControls[j].0)
    decreases |TimeControls| - from
  {
    if from == |TimeControls| then from
    else if Contains(lname, TimeControls[from].0) then from
    else FirstToken(lname, from + 1)
  }

  /**
   * The loop of `final_sort_key`: the rank of the first token in table order
   * (not in the order the tokens appear in the name) that occurs in `lname`,
   * or `NoTimeControl` when none occurs.
   */
  function TimeControlRank(lname: string): (r: int)
    ensures r == NoTimeControl <==> forall j :: 0 <= j < |TimeControls| ==> !Contains(lname, TimeControls[j].0)
    ensures r != NoTimeControl ==>
              && 1 <= r <= |TimeControls|
              && Contains(lname, TimeControls[r - 1].0)
              && forall j :: 0 <= j < r - 1 ==> !Contains(lname, TimeControls[j].0)
  {
    TimeControlRanksArePositions();
    var i := FirstToken(lname, 0);
    if i < |TimeControls| then TimeControls[i].1 else NoTimeControl
  }

  datatype SortKey = SortKey(freqRank: int, tcRank: int, lname: string)

  /** `final_sort_key`. */
  function FinalSortKey(name: string): (k: SortKey)
    ensures 1 <= k.freqRank <= 7
    ensures k.freqRank == FrequencyRank(GetFrequency(name))
    ensures k.tcRank == NoTimeControl || 1 <= k.tcRank <= |TimeControls|
    ensures k.lname == ToLower(name)
    ensures k.tcRank == NoTimeControl <==> forall j :: 0 <= j < |TimeControls| ==> !Contains(ToLower(name), TimeControls[j].0)
    ensures k.tcRank != NoTimeControl ==>
              && Contains(ToLower(name), TimeControls[k.tcRank - 1].0)
              && forall j :: 0 <= j < k.tcRank - 1 ==> !Contains(ToLower(name), TimeControls[j].0)
  {
    var lname := ToLower(name);
    SortKey(FrequencyRank(GetFrequency(name)), TimeControlRank(lname), lname)
  }

  /** Python's tuple comparison `a <= b` on sort keys. */
  predicate KeyLe(a: SortKey, b: SortKey) {
    a.freqRank < b.freqRank
    || (a.freqRank == b.freqRank && (a.tcRank < b.tcRank || (a.tcRank == b.tcRank && StrLe(a.lname, b.lname))))
  }

  lemma KeyLeTotal(a: SortKey, b: SortKey)
    ensures KeyLe(a, b) || KeyLe(b, a)
  {
    StrLeTotal(a.lname, b.lname);
  }

  lemma KeyLeTransitive(a: SortKey, b: SortKey, c: SortKey)
    requires KeyLe(a, b) && KeyLe(b, c)
    ensures KeyLe(a, c)
  {
    if a.freqRank == b.freqRank == c.freqRank && a.tcRank == b.tcRank == c.tcRank {
      StrLeTransitive(a.lname, b.lname, c.lname);
    }
  }

  /** Keys each at most the other are equal, so `KeyLe` is a total order and the stable sort's result is unique. */
  lemma KeyLeAntisymmetric(a: SortKey, b: SortKey)
    requires KeyLe(a, b) && KeyLe(b, a)
    ensures a == b
  {
    StrLeAntisymmetric(a.lname, b.lname);
  }

  /** Names whose keys share a frequency rank share a category. */
  lemma SameFrequencyRankSameCategory(a: string, b: string)
    requires FinalSortKey(a).freqRank == FinalSortKey(b).freqRank
    ensures GetFrequency(a) == GetFrequency(b)
  {
    FrequencyRankInjective(GetFrequency(a), GetFrequency(b));
  }

  /** Two names get the same sort key exactly when they differ at most in letter case. */
  lemma SameKeyIffSameLowerName(a: string, b: string)
    ensures FinalSortKey(a) == FinalSortKey(b) <==> ToLower(a) == ToLower(b)
  {
    if ToLower(a) == ToLower(b) {
      GetFrequencyCaseInsensitive(a, b);
    }
  }

  /** "hyperbullet" is matched as hyperbullet (2), not as the "bullet" it contains, unless "ultrabullet" also occurs. */
  lemma {:induction false} HyperbulletRank(lname: string)
    requires Contains(lname, "hyperbullet") && !Contains(lname, "ultrabullet")
    ensures TimeControlRank(lname) == 2
  {
  }

  /** A name with "superblitz" and no bullet token ranks 4, not as the "blitz" it contains. */
  lemma {:induction false} SuperblitzRank(lname: string)
    requires Contains(lname, "superblitz") && !Contains(lname, "bullet")
    ensures TimeControlRank(lname) == 4
  {
    assert Contains("ultrabullet", "bullet") by {
      assert StartsWith("ultrabullet"[5..], "bullet");
      assert "ultrabullet"[5..] == "ultrabullet"[1..][1..][1..][1..][1..];
    }
    assert Contains("hyperbullet", "bullet") by {
      assert StartsWith("hyperbullet"[5..], "bullet");
      assert "hyperbullet"[5..] == "hyperbullet"[1..][1..][1..][1..][1..];
    }
    if Contains(lname, "ultrabullet") {
      ContainsTransitive(lname, "ultrabullet", "bullet");
    }
    if Contains(lname, "hyperbullet") {
      ContainsTransitive(lname, "hyperbullet", "bullet");
    }
  }

  /**
   * Within one frequency bucket a hyperbullet tournament is listed before a
   * plain bullet one, although both names contain "bullet".
   */
  lemma HyperbulletBeforeBullet(a: string, b: string)
    requires GetFrequency(a) == GetFrequency(b)
    requires Contains(ToLower(a), "hyperbullet") && !Contains(ToLower(a), "ultrabullet")
    requires Contains(ToLower(b), "bullet")
    requires !Contains(ToLower(b), "ultrabullet") && !Contains(ToLower(b), "hyperbullet")
    ensures KeyLe(FinalSortKey(a), FinalSortKey(b)) && !KeyLe(FinalSortKey(b), FinalSortKey(a))
  {
    HyperbulletRank(ToLower(a));
    assert TimeControlRank(ToLower(b)) == 3;
  }

  /** A lower frequency rank decides the order whatever the time controls and names. */
  lemma FrequencyDominates(a: string, b: string)
    requires FrequencyRank(GetFrequency(a)) < FrequencyRank(GetFrequency(b))
    ensures KeyLe(FinalSortKey(a), FinalSortKey(b)) && !KeyLe(FinalSortKey(b), FinalSortKey(a))
  {
  }

  // ---------------------------------------------------------------------------
  // `sorted(grouped.keys(), key=final_sort_key)`: a stable sort by key. The
  // sort and its lemmas take the key function as a parameter; the page uses
  // `FinalSortKey`.

  /** Non-decreasing by key, under Python's tuple order. */
  predicate SortedByKey(s: seq<string>, key: string -> SortKey) {
    forall i, j :: 0 <= i < j < |s| ==> KeyLe(key(s[i]), key(s[j]))
  }

  /** The names of `s` whose key is `k`, in their order in `s`. */
  function WithKey(s: seq<string>, k: SortKey, key: string -> SortKey): (r: seq<string>)
    ensures |r| <= |s|
  {
    if |s| == 0 then []
    else (if key(s[0]) == k then [s[0]] else []) + WithKey(s[1..], k, key)
  }

  /** Inserts `x` before the first name whose key is not smaller, so before every name with an equal key. */
  function Insert(x: string, s: seq<string>, key: string -> SortKey): (r: seq<string>)
    ensures |r| == |s| + 1
  {
    if |s| == 0 then [x]
    else if KeyLe(key(x), key(s[0])) then [x] + s
    else [s[0]] + Insert(x, s[1..], key)
  }

  /** Stable insertion sort by `key`. */
  function SortBy(names: seq<string>, key: string -> SortKey): (r: seq<string>)
    ensures |r| == |names|
  {
    if |names| == 0 then [] else Insert(names[0], SortBy(names[1..], key), key)
  }

  /** `sorted(names, key=final_sort_key)`. */
  function SortNames(names: seq<string>): seq<string> {
    SortBy(names, FinalSortKey)
  }

  lemma {:induction false} InsertPermutes(x: string, s: seq<string>, key: string -> SortKey)
    ensures multiset(Insert(x, s, key)) == multiset(s) + multiset{x}
  {
    if |s| > 0 && !KeyLe(key(x), key(s[0])) {
      InsertPermutes(x, s[1..], key);
      assert s == [s[0]] + s[1..];
    }
  }

  /** A sorted sequence stays sorted when a name whose key is at most every key in it is put in front. */
  lemma ConsSorted(y: string, t: seq<string>, key: string -> SortKey)
    requires SortedByKey(t, key)
    requires forall m :: 0 <= m < |t| ==> KeyLe(key(y), key(t[m]))
    ensures SortedByKey([y] + t, key)
  {
    var r := [y] + t;
    forall i, j | 0 <= i < j < |r|
      ensures KeyLe(key(r[i]), key(r[j]))
    {
      if i == 0 {
        assert r[j] == t[j - 1];
      } else {
        assert r[i] == t[i - 1] && r[j] == t[j - 1];
      }
    }
  }

  lemma {:induction false} InsertSorted(x: string, s: seq<string>, key: string -> SortKey)
    requires SortedByKey(s, key)
    ensures SortedByKey(Insert(x, s, key), key)
  {
    var kx := key(x);
    if |s| == 0 {
    } else if KeyLe(kx, key(s[0])) {
      forall m | 0 <= m < |s|
        ensures KeyLe(kx, key(s[m]))
      {
        if m > 0 {
          KeyLeTransitive(kx, key(s[0]), key(s[m]));
        }
      }
      ConsSorted(x, s, key);
    } else {
      KeyLeTotal(kx, key(s[0]));
      var t := Insert(x, s[1..], key);
      assert SortedByKey(s[1..], key) by {
        forall i, j | 0 <= i < j < |s[1..]|
          ensures KeyLe(key(s[1..][i]), key(s[1..][j]))
        {
          assert s[1..][i] == s[i + 1] && s[1..][j] == s[j + 1];
        }
      }
      InsertSorted(x, s[1..], key);
      InsertPermutes(x, s[1..], key);
      forall m | 0 <= m < |t|
        ensures KeyLe(key(s[0]), key(t[m]))
      {
        var z := t[m];
        assert z in multiset(t);
        if z != x {
          assert z in multiset(s[1..]);
          var n :| 0 <= n < |s[1..]| && s[1..][n] == z;
          assert s[n + 1] == z;
        }
      }
      ConsSorted(s[0], t, key);
    }
  }

  lemma {:induction false} InsertStable(x: string, s: seq<string>, k: SortKey, key: string -> SortKey)
    ensures WithKey(Insert(x, s, key), k, key) == (if key(x) == k then [x] else []) + WithKey(s, k, key)
  {
    var kx := key(x);
    if |s| == 0 {
    } else if KeyLe(kx, key(s[0])) {
      assert ([x] + s)[1..] == s;
    } else {
      StrLeReflexive(kx.lname);
      assert kx != key(s[0]);
      InsertStable(x, s[1..], k, key);
      assert ([s[0]] + Insert(x, s[1..], key))[1..] == Insert(x, s[1..], key);
    }
  }

  /**
   * The stable sort returns a permutation of its input that is
   * non-decreasing by key, and for every key the names carrying it appear
   * in the same relative order as in the input.
   */
  lemma {:induction false} SortByCorrect(names: seq<string>, key: string -> SortKey)
    ensures multiset(SortBy(names, key)) == multiset(names)
    ensures SortedByKey(SortBy(names, key), key)
    ensures forall k :: WithKey(SortBy(names, key), k, key) == WithKey(names, k, key)
  {
    if |names| > 0 {
      var rest := SortBy(names[1..], key);
      SortByCorrect(names[1..], key);
      InsertPermutes(names[0], rest, key);
      InsertSorted(names[0], rest, key);
      assert names == [names[0]] + names[1..];
      forall k
        ensures WithKey(SortBy(names, key), k, key) == WithKey(names, k, key)
      {
        InsertStable(names[0], rest, k, key);
      }
    }
  }
}

=== FILE: records.dfy ===
/**
 * Tournament records as the pipeline reads them, the defaults applied to
 * missing fields, and `Measure`, the per-record sum that every count and
 * points total of the page is an instance of.
 */
module Records {
  import opened Options

  /**
   * One line of the tournament-history stream. Only the fields the pipeline
   * reads are kept; a missing nested `tournament` or `player` object reads
   * the same as one whose fields are all missing.
   */
  datatype Record = Record(
    fullName: Option<string>,    // tournament.fullName
    startsAt: Option<int>,       // tournament.startsAt, milliseconds since the epoch
    rank: Option<int>,           // player.rank
    score: Option<int>,          // player.score
    performance: Option<int>)    // player.performance

  /** Group key of a record without a tournament name. */
  const UnknownName: string := "Unknown"

  /** Rank assumed for an unranked record in the podium and top-10 range tests. */
  const UnrankedRank: int := 9999999

  /** `fullName` with default "Unknown": the name when present, the default otherwise. */
  function GroupName(r: Record): (n: string)
    ensures r.fullName.Some? ==> n == r.fullName.value
    ensures r.fullName.None? ==> n == UnknownName
  {
    r.fullName.GetOr(UnknownName)
  }

  /** `score` with default 0: a missing score adds nothing to a points total. */
  function Score(r: Record): (x: int)
    ensures r.score.Some? ==> x == r.score.value
    ensures r.score.None? ==> x == 0
  {
    r.score.GetOr(0)
  }

  /** `sum(w(t) for t in rs)`, accumulated in list order. */
  function Measure(rs: seq<Record>, w: Record -> int): (m: int)
    ensures (forall i :: 0 <= i < |rs| ==> 0 <= w(rs[i])) ==> 0 <= m
    ensures (forall i :: 0 <= i < |rs| ==> w(rs[i]) <= 1) ==> m <= |rs|
  {
    if |rs| == 0 then 0 else Measure(rs[..|rs| - 1], w) + w(rs[|rs| - 1])
  }

  // The per-record weights summed by the page.

  function Unit(r: Record): int { 1 }

  function ScoreWeight(r: Record): int { Score(r) }

  /** Counts a win: 1 exactly when the rank is present and 1. */
  function FirstPlace(r: Record): (c: int)
    ensures 0 <= c <= 1
    ensures c == 1 <==> r.rank == Some(1)
  {
    if r.rank == Some(1) then 1 else 0
  }

  /** Counts a second place: 1 exactly when the rank is present and 2. */
  function SecondPlace(r: Record): (c: int)
    ensures 0 <= c <= 1
    ensures c == 1 <==> r.rank == Some(2)
  {
    if r.rank == Some(2) then 1 else 0
  }

  /** Counts a third place: 1 exactly when the rank is present and 3. */
  function ThirdPlace(r: Record): (c: int)
    ensures 0 <= c <= 1
    ensures c == 1 <==> r.rank == Some(3)
  {
    if r.rank == Some(3) then 1 else 0
  }

  /**
   * The podium test on the rank with default 9999999: the same as counting
   * a first, second or third place, so an unranked record never counts.
   */
  function Podium(r: Record): (c: int)
    ensures c == FirstPlace(r) + SecondPlace(r) + ThirdPlace(r)
    ensures r.rank.None? ==> c == 0
  {
    var k := r.rank.GetOr(UnrankedRank);
    if 1 <= k <= 3 then 1 else 0
  }

  /** The top-10 test on the rank with default 9999999: counts 1..10 only, never an unranked record, and every podium. */
  function TopTen(r: Record): (c: int)
    ensures 0 <= c <= 1
    ensures c == 1 <==> r.rank.Some? && 1 <= r.rank.value <= 10
    ensures Podium(r) <= c
  {
    var k := r.rank.GetOr(UnrankedRank);
    if 1 <= k <= 10 then 1 else 0
  }

  lemma MeasureSnoc(rs: seq<Record>, r: Record, w: Record -> int)
    ensures Measure(rs + [r], w) == Measure(rs, w) + w(r)
  {
    assert (rs + [r])[..|rs|] == rs;
  }

  /** Summing over a concatenation is summing over each part. */
  lemma {:induction false} MeasureAppend(a: seq<Record>, b: seq<Record>, w: Record -> int)
    ensures Measure(a + b, w) == Measure(a, w) + Measure(b, w)
    decreases |b|
  {
    if |b| > 0 {
      var b', x := b[..|b| - 1], b[|b| - 1];
      assert b == b' + [x];
      assert a + b == (a + b') + [x];
      MeasureAppend(a, b', w);
      MeasureSnoc(a + b', x, w);
      MeasureSnoc(b', x, w);
    } else {
      assert a + b == a;
    }
  }

  /** Counting every record gives the length. */
  lemma {:induction false} MeasureUnit(rs: seq<Record>)
    ensures Measure(rs, Unit) == |rs|
  {
    if |rs| > 0 {
      MeasureUnit(rs[..|rs| - 1]);
    }
  }

  /** A weight that is pointwise a sum of two weights sums to the sum of their totals. */
  lemma {:induction false} MeasureSplit(rs: seq<Record>, w: Record -> int, u: Record -> int, v: Record -> int)
    requires forall r :: w(r) == u(r) + v(r)
    ensures Measure(rs, w) == Measure(rs, u) + Measure(rs, v)
  {
    if |rs| > 0 {
      MeasureSplit(rs[..|rs| - 1], w, u, v);
    }
  }

  /** Summing is monotone in the weight. */
  lemma {:induction false} MeasureMonotone(rs: seq<Record>, w: Record -> int, u: Record -> int)
    requires forall r :: w(r) <= u(r)
    ensures Measure(rs, w) <= Measure(rs, u)
  {
    if |rs| > 0 {
      MeasureMonotone(rs[..|rs| - 1], w, u);
    }
  }

  /** The weight of no record. */
  function Zero(r: Record): int { 0 }

  lemma {:induction false} MeasureZero(rs: seq<Record>)
    ensures Measure(rs, Zero) == 0
  {
    if |rs| > 0 {
      MeasureZero(rs[..|rs| - 1]);
    }
  }
}

=== FILE: series.dfy ===
/**
 * The series builder: the (date, points) entries of a group, sorted by date
 * with a running cumulative sum, and the date-range presets that cut the
 * series at an inclusive lower bound.
 */
module Series {
  import opened Options
  import opened Records

  /** One `(Date, Points)` pair of the chart data; dates are epoch milliseconds. */
  datatype Entry = Entry(date: int, points: int)

  /** One row of the chart frame: `Date`, `Points` and `Cumulative`. */
  datatype Point = Point(date: int, points: int, cumulative: int)

  /** `if timestamp:` — the start time is present and not 0. */
  predicate Dated(r: Record) {
    r.startsAt.Some? && r.startsAt.value != 0
  }

  function EntryOf(r: Record): Entry
    requires Dated(r)
  {
    Entry(r.startsAt.value, Score(r))
  }

  function DatedUnit(r: Record): int { if Dated(r) then 1 else 0 }

  function DatedScore(r: Record): int { if Dated(r) then Score(r) else 0 }

  /** Weight counting the records whose entry is `e`. */
  function Occurrences(e: Entry): Record -> int {
    r => if Dated(r) && EntryOf(r) == e then 1 else 0
  }

  /** Sum of the points column. */
  function SumPoints(es: seq<Entry>): int {
    if |es| == 0 then 0 else SumPoints(es[..|es| - 1]) + es[|es| - 1].points
  }

  /** The chart-data loop: one entry per record with a start time, in group order. */
  function Entries(group: seq<Record>): (es: seq<Entry>)
    ensures |es| == Measure(group, DatedUnit)
    ensures SumPoints(es) == Measure(group, DatedScore)
    ensures forall e :: e in es <==> exists i :: 0 <= i < |group| && Dated(group[i]) && EntryOf(group[i]) == e
  {
    if |group| == 0 then []
    else
      var prev := Entries(group[..|group| - 1]);
      var r := group[|group| - 1];
      MeasureSnoc(group[..|group| - 1], r, DatedUnit);
      MeasureSnoc(group[..|group| - 1], r, DatedScore);
      assert group == group[..|group| - 1] + [r];
      if Dated(r) then
        assert (prev + [EntryOf(r)])[..|prev|] == prev;
        prev + [EntryOf(r)]
      else prev
  }

  /** Each entry occurs in the chart data exactly as often as there are dated records producing it. */
  lemma {:induction false} EntriesMultiplicity(group: seq<Record>, e: Entry)
    ensures multiset(Entries(group))[e] == Measure(group, Occurrences(e))
  {
    if |group| > 0 {
      var g', r := group[..|group| - 1], group[|group| - 1];
      EntriesMultiplicity(g', e);
      MeasureSnoc(g', r, Occurrences(e));
      assert group == g' + [r];
    }
  }

  lemma {:induction false} SumPointsCons(x: Entry, s: seq<Entry>)
    ensures SumPoints([x] + s) == x.points + SumPoints(s)
    decreases |s|
  {
    if |s| > 0 {
      var s' := s[..|s| - 1];
      assert ([x] + s)[..|s|] == [x] + s';
      SumPointsCons(x, s');
    }
  }

  // ---------------------------------------------------------------------------
  // `sort_values("Date")`.

  predicate SortedByDate(es: seq<Entry>) {
    forall i, j :: 0 <= i < j < |es| ==> es[i].date <= es[j].date
  }

  function InsertEntry(x: Entry, s: seq<Entry>): (r: seq<Entry>)
    ensures |r| == |s| + 1
  {
    if |s| == 0 then [x]
    else if x.date <= s[0].date then [x] + s
    else [s[0]] + InsertEntry(x, s[1..])
  }

  /** Insertion sort by date. */
  function SortByDate(es: seq<Entry>): (r: seq<Entry>)
    ensures |r| == |es|
  {
    if |es| == 0 then [] else InsertEntry(es[0], SortByDate(es[1..]))
  }

  lemma {:induction false} InsertEntryPermutes(x: Entry, s: seq<Entry>)
    ensures multiset(InsertEntry(x, s)) == multiset(s) + multiset{x}
    ensures SumPoints(InsertEntry(x, s)) == x.points + SumPoints(s)
  {
    if |s| == 0 {
      SumPointsCons(x, s);
    } else if x.date <= s[0].date {
      SumPointsCons(x, s);
    } else {
      InsertEntryPermutes(x, s[1..]);
      assert s == [s[0]] + s[1..];
      SumPointsCons(s[0], InsertEntry(x, s[1..]));
      SumPointsCons(s[0], s[1..]);
    }
  }

  lemma {:induction false} InsertEntrySorted(x: Entry, s: seq<Entry>)
    requires SortedByDate(s)
    ensures SortedByDate(InsertEntry(x, s))
  {
    if |s| > 0 && x.date > s[0].date {
      var t := InsertEntry(x, s[1..]);
      InsertEntrySorted(x, s[1..]);
      InsertEntryPermutes(x, s[1..]);
      var r := [s[0]] + t;
      forall i, j | 0 <= i < j < |r|
        ensures r[i].date <= r[j].date
      {
        if i == 0 {
          assert r[j] in multiset(t);
          if r[j] != x {
            assert r[j] in multiset(s[1..]);
            var m :| 0 <= m < |s[1..]| && s[1..][m] == r[j];
            assert s[m + 1] == r[j];
          }
        } else {
          assert r[i] == t[i - 1] && r[j] == t[j - 1];
        }
      }
    }
  }

  /** The date sort reorders the entries into non-decreasing date order and keeps every entry. */
  lemma {:induction false} SortByDateCorrect(es: seq<Entry>)
    ensures SortedByDate(SortByDate(es))
    ensures multiset(SortByDate(es)) == multiset(es)
    ensures SumPoints(SortByDate(es)) == SumPoints(es)
  {
    if |es| > 0 {
      SortByDateCorrect(es[1..]);
      InsertEntrySorted(es[0], SortByDate(es[1..]));
      InsertEntryPermutes(es[0], SortByDate(es[1..]));
      assert es == [es[0]] + es[1..];
      SumPointsCons(es[0], es[1..]);
    }
  }

  // ---------------------------------------------------------------------------
  // `cumsum()`.

  /** Sum of the points of the first `i + 1` entries. */
  function RunningTotal(es: seq<Entry>, i: nat): int
    requires i < |es|
  {
    SumPoints(es[..i + 1])
  }

  /** Running totals only look at the entries up to their position. */
  lemma RunningTotalOfPrefix(es: seq<Entry>, n: nat)
    requires n <= |es|
    ensures forall i :: 0 <= i < n ==> RunningTotal(es[..n], i) == RunningTotal(es, i)
  {
    forall i | 0 <= i < n
      ensures RunningTotal(es[..n], i) == RunningTotal(es, i)
    {
      assert es[..n][..i + 1] == es[..i + 1];
    }
  }

  /** The rows of the frame: each entry with the running total of the points up to and including it. */
  function Accumulate(es: seq<Entry>): (ps: seq<Point>)
    ensures |ps| == |es|
    ensures forall i :: 0 <= i < |ps| ==> ps[i].date == es[i].date && ps[i].points == es[i].points
    ensures forall i :: 0 <= i < |ps| ==> ps[i].cumulative == RunningTotal(es, i)
  {
    if |es| == 0 then []
    else
      var prev := Accumulate(es[..|es| - 1]);
      var e := es[|es| - 1];
      var running := if |prev| == 0 then 0 else prev[|prev| - 1].cumulative;
      RunningTotalOfPrefix(es, |es| - 1);
      assert running == SumPoints(es[..|es| - 1]) by {
        if |prev| > 0 {
          assert es[..|es| - 1][..|prev|] == es[..|es| - 1];
        }
      }
      assert es[..|es|] == es;
      prev + [Point(e.date, e.points, running + e.points)]
  }

  lemma SumPointsPrefixStep(es: seq<Entry>, i: nat)
    requires i < |es|
    ensures SumPoints(es[..i + 1]) == SumPoints(es[..i]) + es[i].points
  {
    assert es[..i + 1][..i] == es[..i];
  }

  /** Cumulative column recurrence: it starts at the first points value and adds each row's points. */
  lemma CumulativeRecurrence(es: seq<Entry>)
    ensures |es| > 0 ==> Accumulate(es)[0].cumulative == es[0].points
    ensures forall i :: 0 < i < |es| ==> Accumulate(es)[i].cumulative == Accumulate(es)[i - 1].cumulative + es[i].points
    ensures |es| > 0 ==> Accumulate(es)[|es| - 1].cumulative == SumPoints(es)
  {
    var ps := Accumulate(es);
    forall i | 0 < i < |es|
      ensures ps[i].cumulative == ps[i - 1].cumulative + es[i].points
    {
      SumPointsPrefixStep(es, i);
    }
    if |es| > 0 {
      SumPointsPrefixStep(es, 0);
      assert es[..|es|] == es;
    }
  }

  /** `df_points`: the group's dated entries, sorted by date, with the cumulative column. */
  function BuildSeries(group: seq<Record>): seq<Point> {
    Accumulate(SortByDate(Entries(group)))
  }

  predicate SortedPoints(ps: seq<Point>) {
    forall i, j :: 0 <= i < j < |ps| ==> ps[i].date <= ps[j].date
  }

  /** The `(Date, Points)` columns of a frame. */
  function Columns(ps: seq<Point>): (es: seq<Entry>)
    ensures |es| == |ps|
  {
    seq(|ps|, i requires 0 <= i < |ps| => Entry(ps[i].date, ps[i].points))
  }

  /**
   * The series holds exactly the group's dated entries (as a multiset), in
   * non-decreasing date order, and its last cumulative value is the sum of
   * the scores of the dated records.
   */
  lemma BuildSeriesCorrect(group: seq<Record>)
    ensures SortedPoints(BuildSeries(group))
    ensures multiset(Columns(BuildSeries(group))) == multiset(Entries(group))
    ensures |BuildSeries(group)| == Measure(group, DatedUnit)
    ensures |BuildSeries(group)| > 0 ==> BuildSeries(group)[|BuildSeries(group)| - 1].cumulative == Measure(group, DatedScore)
  {
    var sorted := SortByDate(Entries(group));
    SortByDateCorrect(Entries(group));
    CumulativeRecurrence(sorted);
    assert Columns(BuildSeries(group)) == sorted;
  }

  /** Each (date, points) pair occurs in the series exactly as often as dated records of the group produce it. */
  lemma BuildSeriesMultiplicity(group: seq<Record>, e: Entry)
    ensures multiset(Columns(BuildSeries(group)))[e] == Measure(group, Occurrences(e))
  {
    BuildSeriesCorrect(group);
    EntriesMultiplicity(group, e);
  }

  lemma {:induction false} CumulativeStep(ps: seq<Point>, i: nat, j: nat)
    requires forall k :: 0 < k < |ps| ==> ps[k].cumulative == ps[k - 1].cumulative + ps[k].points
    requires forall k :: 0 <= k < |ps| ==> ps[k].points >= 0
    requires i <= j < |ps|
    ensures ps[i].cumulative <= ps[j].cumulative
    decreases j - i
  {
    if i < j {
      CumulativeStep(ps, i, j - 1);
    }
  }

  /** With no negative score in the group, every entry has non-negative points. */
  lemma EntriesNonNegative(group: seq<Record>)
    requires forall k :: 0 <= k < |group| ==> Score(group[k]) >= 0
    ensures forall e :: e in Entries(group) ==> e.points >= 0
  {
  }

  /** With no negative score in the group, the cumulative column never decreases. */
  lemma CumulativeMonotone(group: seq<Record>)
    requires forall k :: 0 <= k < |group| ==> Score(group[k]) >= 0
    ensures var ps := BuildSeries(group);
      forall i, j :: 0 <= i <= j < |ps| ==> ps[i].cumulative <= ps[j].cumulative
  {
    var es := Entries(group);
    var sorted := SortByDate(es);
    var ps := Accumulate(sorted);
    SortByDateCorrect(es);
    EntriesNonNegative(group);
    CumulativeRecurrence(sorted);
    forall k | 0 <= k < |ps|
      ensures ps[k].points >= 0
    {
      assert sorted[k] in multiset(es);
      assert sorted[k] in es;
    }
    forall i, j | 0 <= i <= j < |ps|
      ensures ps[i].cumulative <= ps[j].cumulative
    {
      CumulativeStep(ps, i, j);
    }
  }

  // ---------------------------------------------------------------------------
  // Date-range presets.

  /** The lower bounds the host computes from today's date, one per preset other than ALL. */
  datatype Bounds = Bounds(oneMonth: int, threeMonths: int, sixMonths: int, yearStart: int, oneYear: int)

  /** The bound a preset filters by; none for ALL and for an unrecognised preset. */
  function PresetBound(preset: string, b: Bounds): Option<int> {
    if preset == "1M" then Some(b.oneMonth)
    else if preset == "3M" then Some(b.threeMonths)
    else if preset == "6M" then Some(b.sixMonths)
    else if preset == "YTD" then Some(b.yearStart)
    else if preset == "1Y" then Some(b.oneYear)
    else None
  }

  /** `df_points[df_points["Date"] >= bound]`: the rows on or after `bound`, in their order. */
  function FilterFrom(ps: seq<Point>, bound: int): (r: seq<Point>)
    ensures |r| <= |ps|
    ensures forall p :: p in r <==> p in ps && p.date >= bound
  {
    if |ps| == 0 then []
    else (if ps[0].date >= bound then [ps[0]] else []) + FilterFrom(ps[1..], bound)
  }

  /** Number of leading rows dated before `bound`. */
  function CountBefore(ps: seq<Point>, bound: int): (k: nat)
    ensures k <= |ps|
  {
    if |ps| == 0 || ps[0].date >= bound then 0 else 1 + CountBefore(ps[1..], bound)
  }

  /**
   * On a date-sorted frame the filter drops exactly the rows before the
   * bound and keeps the rest as a suffix: the kept rows are the original
   * rows, with their original cumulative values.
   */
  lemma {:induction false} FilterSortedIsSuffix(ps: seq<Point>, bound: int)
    requires SortedPoints(ps)
    ensures FilterFrom(ps, bound) == ps[CountBefore(ps, bound)..]
    ensures forall i :: 0 <= i < CountBefore(ps, bound) ==> ps[i].date < bound
  {
    if |ps| > 0 {
      assert SortedPoints(ps[1..]) by {
        forall i, j | 0 <= i < j < |ps[1..]|
          ensures ps[1..][i].date <= ps[1..][j].date
        {
          assert ps[1..][i] == ps[i + 1] && ps[1..][j] == ps[j + 1];
        }
      }
      FilterSortedIsSuffix(ps[1..], bound);
      if ps[0].date >= bound {
        assert ps == [ps[0]] + ps[1..];
      } else {
        forall i | 0 <= i < CountBefore(ps, bound)
          ensures ps[i].date < bound
        {
          if i > 0 {
            assert ps[1..][i - 1] == ps[i];
          }
        }
      }
    }
  }

  /** The preset switch: ALL and unrecognised presets keep the frame, the others filter it at their bound. */
  function ApplyPreset(ps: seq<Point>, preset: string, b: Bounds): (r: seq<Point>)
    ensures preset == "ALL" ==> r == ps
    ensures PresetBound(preset, b).None? ==> r == ps
    ensures PresetBound(preset, b).Some? ==> forall p :: p in r <==> p in ps && p.date >= PresetBound(preset, b).value
  {
    match PresetBound(preset, b)
    case None => ps
    case Some(bound) => FilterFrom(ps, bound)
  }

  /** On a date-sorted series (such as `BuildSeries`), a filtered series is a suffix of it: still sorted, and its rows keep their cumulative values. */
  lemma ApplyPresetKeepsSuffix(ps: seq<Point>, preset: string, b: Bounds)
    requires SortedPoints(ps)
    ensures var r := ApplyPreset(ps, preset, b);
      && SortedPoints(r)
      && |r| <= |ps|
      && r == ps[|ps| - |r|..]
  {
    if PresetBound(preset, b).Some? {
      FilterSortedIsSuffix(ps, PresetBound(preset, b).value);
    }
  }
}

=== FILE: text.dfy ===
/**
 * String helpers used by the classifier and the ranker: ASCII lower-casing,
 * prefix and substring tests, and the code-point lexicographic order that
 * Python uses to compare strings.
 */
module Text {

  /** Lower-cases one ASCII letter; every other character is left alone. */
  function LowerChar(c: char): (d: char)
    ensures !('A' <= d <= 'Z')
    ensures !('A' <= c <= 'Z') ==> d == c
  {
    if 'A' <= c <= 'Z' then (c as int + 32) as char else c
  }

  predicate IsLower(s: string) {
    forall i :: 0 <= i < |s| ==> !('A' <= s[i] <= 'Z')
  }

  /** `str.lower()` restricted to ASCII letters. */
  function ToLower(s: string): (r: string)
    ensures |r| == |s|
    ensures IsLower(r)
    ensures forall i :: 0 <= i < |s| && !('A' <= s[i] <= 'Z') ==> r[i] == s[i]
    ensures forall i :: 0 <= i < |s| && 'A' <= s[i] <= 'Z' ==> r[i] as int == s[i] as int + 32
  {
    seq(|s|, i requires 0 <= i < |s| => LowerChar(s[i]))
  }

  /** Lower-casing twice is lower-casing once, so every test on a lower-cased name is case-insensitive. */
  lemma ToLowerIdempotent(s: string)
    ensures ToLower(ToLower(s)) == ToLower(s)
  {
    var t := ToLower(s);
    forall i | 0 <= i < |t|
      ensures ToLower(t)[i] == t[i]
    {
      assert !('A' <= t[i] <= 'Z');
    }
  }

  /** `s.startswith(p)`. */
  predicate StartsWith(s: string, p: string) {
    |p| <= |s| && s[..|p|] == p
  }

  /** `t in s`: `t` occurs as a contiguous substring of `s` (the empty string occurs everywhere). */
  predicate Contains(s: string, t: string)
    decreases |s|
  {
    StartsWith(s, t) || (|s| > 0 && Contains(s[1..], t))
  }

  /** Substrings of a prefix are substrings of the whole string. */
  lemma {:induction false} ContainsInPrefix(s: string, p: string, u: string)
    requires StartsWith(s, p)
    requires Contains(p, u)
    ensures Contains(s, u)
    decreases |p|
  {
    if StartsWith(p, u) {
      assert s[..|u|] == p[..|u|];
    } else {
      assert |p| > 0 && Contains(p[1..], u);
      assert StartsWith(s[1..], p[1..]) by {
        assert s[1..][..|p| - 1] == s[..|p|][1..];
      }
      ContainsInPrefix(s[1..], p[1..], u);
    }
  }

  /** "Is a substring of" is transitive. */
  lemma {:induction false} ContainsTransitive(s: string, t: string, u: string)
    requires Contains(s, t)
    requires Contains(t, u)
    ensures Contains(s, u)
    decreases |s|
  {
    if StartsWith(s, t) {
      ContainsInPrefix(s, t, u);
    } else {
      ContainsTransitive(s[1..], t, u);
    }
  }

  /** Python's `<=` on strings: lexicographic by code point, a proper prefix sorting first. */
  predicate StrLe(a: string, b: string)
    decreases |a|
  {
    |a| == 0 || (|b| > 0 && (a[0] < b[0] || (a[0] == b[0] && StrLe(a[1..], b[1..]))))
  }

  lemma {:induction false} StrLeTotal(a: string, b: string)
    ensures StrLe(a, b) || StrLe(b, a)
    decreases |a|
  {
    if |a| > 0 && |b| > 0 && a[0] == b[0] {
      StrLeTotal(a[1..], b[1..]);
    }
  }

  lemma {:induction false} StrLeTransitive(a: string, b: string, c: string)
    requires StrLe(a, b) && StrLe(b, c)
    ensures StrLe(a, c)
    decreases |a|
  {
    if |a| > 0 && a[0] == b[0] && b[0] == c[0] {
      StrLeTransitive(a[1..], b[1..], c[1..]);
    }
  }

  lemma {:induction false} StrLeAntisymmetric(a: string, b: string)
    requires StrLe(a, b) && StrLe(b, a)
    ensures a == b
    decreases |a|
  {
    if |a| > 0 {
      StrLeAntisymmetric(a[1..], b[1..]);
      assert a == [a[0]] + a[1..] && b == [b[0]] + b[1..];
    }
  }

  /** Every string is `<=` itself. */
  lemma {:induction false} StrLeReflexive(a: string)
    ensures StrLe(a, a)
    decreases |a|
  {
    if |a| > 0 {
      StrLeReflexive(a[1..]);
    }
  }
}
